=== FILE: README.md ===
# Batch downloader core, modelled in Dafny

This project models the logic of a small batch downloader built on yt-dlp:

- **Web front end (`app.py`).** A Flask application accepts a list of video addresses, registers a *job* for it and downloads the items on a thread pool. Meanwhile the page polls the job's status.
- **Command-line tool (`youtube_downloader.py`).** It offers the same downloads through a text menu, including a paged channel browser.

The model covers the parts of both programs that are logic rather than I/O:

- **`ChannelUrl`** (`channel_url.dfy`): `normalize_channel_url`, which both programs use.
  - It strips the input and gives a bare `@handle` or a bare `youtube.com/…` address a scheme and host.
  - An address that already names a list is kept. A channel address gets its trailing slashes trimmed and `/videos` appended.
  - Proved: the result is canonical, and normalizing is idempotent.
- **`WebRequest`** (`web_request.dfy`): request validation in the web front end and its `build_opts`.
  - Validation keeps the stripped, non-blank addresses in order with duplicates. It clamps the worker count into [1, 8] and falls back to 4 when the count does not parse. It rejects a request that has no addresses.
  - `build_opts` maps the video or audio mode and a format name to the yt-dlp options record.
- **`Jobs`** (`jobs.dfy`): the job registry, the map from job id to job record.
  - Each lifecycle step is a function on a job record: register pending, start, mark every item running, record one download outcome, finalize.
  - The class `Registry` holds the map as a field and performs the steps in place, with `modifies` clauses.
  - The pool delivers outcomes in any order. `Registry.Run` takes that order as a parameter, and its postcondition gives a final job that does not depend on it.
  - Proved: outcomes of distinct items commute. The final status is `done` exactly when every item is done, and `error` exactly when some item failed, with that item's message.
  - The registry keeps a status invariant in every state its methods reach: a pending job has no items, a done job has only done items, and a job in error has only finished items, at least one of them in error.
  - Every operation moves each job, and each item, by at most one step along the lifecycle: pending, then running, then done or error. No job disappears, nothing goes back, done and error never turn into each other, and a finished item never changes. A whole run takes a pending job to done or error.
- **`Cli`** (`cli.dfy`): the command-line tool's decisions.
  - The language menu, the video/audio answer and its `build_opts`. The CLI's menu numbers select the same yt-dlp settings as the web page's named choices.
  - One round of the channel browser: `q` quits, `m` advances by one page of 10, and a number in range picks that entry. Anything else is invalid and keeps the offset.
  - Proved: over any run the offset is ten times the number of `m` answers acted on.
- **Supporting modules:**
  - `Text` (`text.dfy`): the Python string operations the code relies on: `strip`, `rstrip`, `lower`, `startswith`, `in`, `isdigit`, `int`.
  - `YdlOptions` (`ydl_options.dfy`): the options record.
  - `Wrappers` (`wrappers.dfy`): `Option` and `Result`.

## Behaviour worth knowing

- A worker count of 0 or below gives 1 (`max(1, …)` at app.py:196); a value `int()` cannot parse gives 4, as a missing key does (app.py:194).
- A worker count that does not parse is never a validation error.
- Every item is marked `running` as soon as it is submitted to the pool (app.py:149-151), whatever the pool's size, so the number of `running` items is not bounded by the worker count.
- The message of a failed item is `str(exc)`, which can be empty.

## Model

| member | source | states |
|---|---|---|
| ChannelUrl.Normalize | youtube_downloader.py:72-87 | The result is empty exactly when the input is blank. Otherwise, after the scheme fix-up of the stripped input, a list address is returned as is, a channel address gets trailing `/` trimmed and `/videos` appended, and any other address is returned as is. |
| ChannelUrl.NormalizeOptional | app.py:66-80 | `None` and blank input give `""`. Otherwise the web copy agrees with the command-line copy. |
| ChannelUrl.WithScheme | app.py:71-74 | A leading `@` gets `https://www.youtube.com/` prepended. A leading `youtube.com/` gets `https://`. Anything else is unchanged. The result starts with neither. |
| ChannelUrl.Retarget | app.py:75-80 | List addresses are kept, non-channel addresses are kept, and channel addresses get the `/videos` tab. |
| ChannelUrl.NamesList | app.py:76-77 | An address names a list exactly when its lower-cased text contains one of `/videos`, `/streams`, `/shorts`, `/playlist`, `/watch`, `list=`. Trimming trailing `/` never changes the answer. |
| ChannelUrl.IsChannelLike | app.py:78 | An address that counts as a channel contains one of `/channel/`, `/user/`, `/c/`, `/@` in its lower-cased text. |
| ChannelUrl.ListTagsIgnoreTrailingSlash | app.py:75-77 | No list tag ends in `/`, so trimming trailing slashes neither hides nor reveals one. |
| ChannelUrl.ChannelKeysSurviveTrim | app.py:75-78 | A channel key found after trimming trailing slashes was in the address before. |
| ChannelUrl.WithSchemeTrimmed | app.py:68-74 | The scheme fix-up of stripped, non-empty input is still stripped and non-empty. |
| ChannelUrl.TabNamesList | app.py:76-79 | Any address ending in `/videos` counts as naming a list. |
| ChannelUrl.NoSlashNoChannel | app.py:78 | An address without `/` is never channel-like. |
| ChannelUrl.TabNotBareHost | app.py:73-79 | The `/videos` form of a channel address never starts with the bare `youtube.com/`. |
| ChannelUrl.ChannelTabCanonical | app.py:78-79 | The `/videos` form of a channel address is stripped, has no prefix left to add, and names a list. |
| ChannelUrl.NormalizeCanonical | app.py:66-80 | Every normalized address is empty, or it is stripped, has no prefix left to add, and either names a list or is not channel-like. |
| ChannelUrl.NormalizeIdempotent | youtube_downloader.py:81-87 | Normalizing a normalized address changes nothing. |
| ChannelUrl.TabKeepsPrefix | app.py:79 | Trimming trailing `/` and appending `/videos` keeps any prefix that does not end in `/`. |
| ChannelUrl.RetargetKeepsPrefix | app.py:75-80 | The list/channel decision keeps any prefix of the address that does not end in `/`. |
| ChannelUrl.NormalizeHandle | app.py:71-72 | A bare `@handle` always ends up as `https://www.youtube.com/@…`. |
| WebRequest.BuildOpts | app.py:83-114 | Video mode: the format is one of the three video strings, `1080p` and `720p` select the limited ones (each in both directions) and everything else selects best; the merge format is `mp4`; there are no post-processors. Audio mode: the format is `bestaudio/best` with one extraction at quality `192`, whose codec is the choice when it is `mp3`/`m4a`/`opus` and `mp3` otherwise. `quiet` is always set. `ffmpeg_location` is present exactly when the FFmpeg directory exists. |
| WebRequest.BuildOptsFallback | app.py:91-99 | An unknown format name builds the same options as the default, `best` or `mp3`. |
| WebRequest.IsUsable | app.py:191 | `if u and u.strip()` keeps an entry exactly when it is a non-empty string whose stripped text is non-empty. |
| WebRequest.UsableUrls | app.py:191 | Filtering never produces more addresses than it was given. |
| WebRequest.UsableUrlsTrimmed | app.py:191 | Every kept address is non-empty and stripped. |
| WebRequest.UsableUrlsEmpty | app.py:191 | Nothing is kept exactly when no entry is a non-blank string. |
| WebRequest.UsableUrlsAppend | app.py:191 | Filtering a concatenation concatenates the filtered parts. Order is kept and duplicates stay distinct. |
| WebRequest.UsableUrlsSingle | app.py:191 | A single entry gives its stripped text when it is non-blank, and nothing otherwise. |
| WebRequest.ClampWorkers | app.py:194-198 | The count always lies in [1, 8]. In-range values are unchanged, values below 1 give 1, values above 8 give 8, and a missing or unparseable value gives 4. |
| WebRequest.ClampWorkersIdempotent | app.py:196 | Clamping a clamped count changes nothing. |
| WebRequest.Validate | app.py:190-200 | The request is rejected with "No URLs provided" exactly when no entry is a non-blank string. Otherwise it carries the filtered addresses, the clamped worker count, video mode unless `mode` is present and not `video`, and the format with `best` as the default. |
| Jobs.Settled | app.py:131-138 | A success gives status `done` with an empty message. A failure gives status `error` with the exception's text. Both are terminal. |
| Jobs.NewJob | app.py:203-208 | A new job is pending, has no items, and keeps its id and worker count. |
| Jobs.Started | app.py:144-145 | Status becomes `running`, with one pending item per address, in order, each with an empty message. Id and worker count are kept. |
| Jobs.Dispatched | app.py:149-151 | Every item becomes `running`, with address, message, count and job status unchanged. |
| Jobs.Recorded | app.py:159-161 | Only the item at the index changes, to the outcome's status and message. The item count, the other items and the job fields are unchanged. |
| Jobs.Finalized | app.py:163-165 | Status is `done` exactly when every item is done, and `error` otherwise. Items are untouched. |
| Jobs.FinalizedConsistent | app.py:153-165 | Finalizing a job whose items have all finished meets the status invariant: a job in error has some item in error. |
| Jobs.StartedStep | app.py:140-145 | Starting a pending job is one step, to running, and leaves every item pending. |
| Jobs.DispatchedStep | app.py:147-151 | Dispatching items that are all pending moves each of them one step, to running. |
| Jobs.RecordedStep | app.py:153-161 | Recording the outcome of a running item moves it one step, to done or error, and changes no other item. |
| Jobs.FinalizedStep | app.py:163-165 | Finalizing a running job whose items have all finished is one step, to done or error. Finalizing a job that is already done or in error changes nothing. |
| Jobs.RecordedCommute | app.py:153-161 | Outcomes of two distinct items can be recorded in either order. |
| Jobs.RecordAll | app.py:153-161 | Recording outcomes never changes the job's id, worker count, status or item count. |
| Jobs.RecordAllSnoc | app.py:153-161 | Recording one more completion extends the previous recordings by one step. |
| Jobs.RecordAllAt | app.py:153-161 | After any completion order, an item whose index has arrived holds its own outcome, and every other item is untouched. |
| Jobs.RecordAllOrderIndependent | app.py:153-161 | Two completion orders that deliver the same indices leave the same job. |
| Jobs.RecordAllStep | app.py:153-161 | Recording outcomes for items that were all running moves each item at most one step, to done or error, in any completion order. |
| Jobs.NextArrivalRunning | app.py:153-161 | When each download reports once (as `as_completed` yields each future once), the item of the next report is still running. |
| Jobs.Completed | app.py:145-161 | When every download has completed, item `i` is address `i` settled by outcome `i`. |
| Jobs.Ran | app.py:130-165 | What `run_job` leaves behind: id and worker count kept, one item per address, a final status, and `done` exactly when every item is done. |
| Jobs.RunSteps | app.py:140-165 | Start, dispatch, recording in any order that covers every item, and finalize together give the same job as recording the outcomes in index order. |
| Jobs.RanStatus | app.py:163-165 | The finished job keeps one item per address, and every item is terminal. The job is done exactly when all items are done. It is in error exactly when some download failed, and then that item is `error` with its message. The finished job meets the status invariant. |
| Jobs.Registry.constructor | app.py:63 | The registry starts empty. Every method keeps the registry invariant: each job is filed under its own id, has 1 to 8 workers, and meets the status invariant (pending has no items; done has only done items; error has only finished items, at least one in error). Every mutating method except `Run` also ensures that no job disappears and that each job and each item moves by at most one step: pending to running, or running to done or error. Nothing goes back, and a finished item never changes. |
| Jobs.MovesUpdate | app.py:130-165 | Replacing one job by a job that moves along the lifecycle moves the whole registry along it, by the same number of steps. |
| Jobs.Registry.Submit | app.py:189-213 | A rejected request adds no job. An accepted one adds exactly one pending job under the fresh id, with the clamped worker count, and leaves every other job unchanged. |
| Jobs.Registry.Lookup | app.py:217-222 | An unknown id gives not-found. A known id gives the record filed under it, whose id field is that id. |
| Jobs.Registry.Start | app.py:140-145 | A missing job changes nothing and reports not found. Otherwise the job, which is still pending because `run_job` starts right after registration (app.py:203-212), changes to `Started` and nothing else changes. |
| Jobs.Registry.Dispatch | app.py:147-151 | For a running job whose items are all pending, the loop marks every item `running` and changes nothing else. |
| Jobs.Registry.Record | app.py:153-161 | For a running job, only the item at the index changes, and that item was still running. A job that is no longer registered is left alone. |
| Jobs.Registry.RecordInOrder | app.py:153-161 | The completion loop records the outcomes in arrival order, each download once, and changes nothing else. |
| Jobs.Registry.Finalize | app.py:163-165 | For a running job whose items have all finished (as after `as_completed` is exhausted), only the job's status changes, to `done` or `error`. An absent job is left alone. |
| Jobs.Registry.Run | app.py:130-165 | A missing job changes nothing. Otherwise the pending job ends with one settled item per address and its final status, whatever order the downloads report in (each once). Every other job is unchanged, and no job moves back. |
| Cli.PickLang | youtube_downloader.py:67-69 | The stripped answer `2` gives Chinese and `3` gives Spanish (each in both directions). Every other answer gives English. |
| Cli.PickLangMenuKey | youtube_downloader.py:69 | Each language's menu number picks that language. |
| Cli.PickLangPadded | youtube_downloader.py:68-69 | Whitespace around the answer never changes the language. |
| Cli.ChooseVideo | youtube_downloader.py:178-179 | Video mode is chosen exactly when the stripped answer is `1`. Every other answer means audio. |
| Cli.ChooseVideoPadded | youtube_downloader.py:197-198 | Whitespace around the answer never changes the video/audio choice. |
| Cli.AudioCodec | youtube_downloader.py:105 | Answer `2` selects `m4a` and `3` selects `opus` (each in both directions); every other answer selects `mp3`. |
| Cli.BuildOpts | youtube_downloader.py:90-119 | Video mode: choices `2`/`3` select the 1080/720 formats (each in both directions) and every other choice selects best; the merge format is `mp4`. Audio mode: the format is `bestaudio/best` at quality `192`; `2` selects `m4a` and `3` selects `opus` (both directions), and everything else selects `mp3`. `ffmpeg_location` is present exactly when the directory exists. |
| Cli.BuildOptsMatchesWeb | youtube_downloader.py:90-119 | The CLI's numbered choices build the same options as the web front end's named choices, apart from `quiet`. |
| Cli.Target | youtube_downloader.py:175-177 | An entry's `url` is used when it is present and non-empty, and its `webpage_url` otherwise. |
| Cli.Answer | youtube_downloader.py:166 | The browser's answer is empty exactly for a blank input. Otherwise it has no surrounding whitespace and no upper-case ASCII letter. |
| Cli.PicksEntry | youtube_downloader.py:172-174 | A choice that picks an entry is non-empty and all digits, and the page lists at least one entry. |
| Cli.PicksEntryDigit | youtube_downloader.py:172-174 | A single digit `d` picks an entry exactly when `1 <= d <= len(entries)`. |
| Cli.PicksEntryLeadingZero | youtube_downloader.py:172-174 | Leading zeros do not change which entry a number picks, as with `int()`. |
| Cli.Browse | youtube_downloader.py:166-187 | An empty page ends browsing. `q` quits, and `m` moves the offset forward by exactly 10. A number `n` downloads entry `n-1` exactly when `1 <= n <= len(entries)`. Anything else is invalid. Every non-final step keeps the offset, except `m`. |
| Cli.OffsetAfter | youtube_downloader.py:148-171 | Over any run of rounds the offset never decreases. |
| Cli.PagesTurned | youtube_downloader.py:166-171 | No more pages are turned than there are rounds. |
| Cli.OffsetCountsPages | youtube_downloader.py:166-171 | The offset after a run is the start plus 10 for each `m` acted on before browsing ended. |
| Cli.BrowseOffsetOnPage | youtube_downloader.py:148-149 | Starting from 0, the browser is always a whole number of pages in. |

## Left out

- **Threads, locking and the pool** (app.py:12-14, 62, 147-156, 209-212): the background thread, `jobs_lock`, `ThreadPoolExecutor` and `as_completed` are not modelled. The steps run one after another. Completion order is the `order` parameter of `Jobs.Registry.Run`, so the model says nothing about interleavings with a concurrent status read.
- **Downloads and channel listings** (`download_one`, `fetch_channel_entries`, `download`, `api_channel`): these call into yt-dlp over the network. A download's result is an input `Outcome`, and a fetched page is an input sequence of entries.
- **Flask plumbing** (app.py:168-222): routes, `request.get_json` (a body that does not parse is read as `{}`), `jsonify` and HTTP status codes. Results are return values and `Option`/`Result`.
- **Malformed request bodies** (app.py:190-191): the model's request always carries a sequence of entries in `urls`. The program does more with other JSON shapes:
  - A body that is falsy, of any type, is read as `{}`, like one that does not parse.
  - A body that is truthy but not an object (such as `[1]`) makes `data.get` raise, an HTTP 500.
  - A string `urls` is iterated character by character, so `{"urls": "ab"}` creates a job with the two items `a` and `b`.
  - An object `urls` is iterated over its keys, so `{"urls": {"a": 1}}` creates a job with the one item `a`.
  - A `null` or numeric `urls` makes the comprehension raise, an HTTP 500.
- **`index()`** (app.py:225-690): inline HTML, CSS and JavaScript.
- **Static tables**: the `LANG` text tables and everything printed from them.
- **Interactive loops**: the `input`/`print` loops of `main` and `browse_channel`, including the main menu's dispatch. Only the decisions are modelled (language, video/audio, browse step).
- **Empty-page retry** in `browse_channel` (youtube_downloader.py:153-161): when a page is empty, the function refetches with `/videos` appended and then returns whether or not the refetch found entries. So an empty page always ends browsing, which is what `Cli.Browse` models. The refetched page itself is never used.
- **Environment**:
  - The random `uuid4` id is a parameter that must not already be in the registry.
  - `FFMPEG_BIN.exists()` together with the directory path is the `Option<string>` parameter `ffmpegBin`.
  - The outcome of Python's `int()` on the `workers` value is the `WorkersField` parameter.
- **Unicode**: `str.lower()` is modelled for ASCII letters only, and `isdigit()`/`int()` for ASCII digits only. `strip()` uses Python's full whitespace set.
- **Non-string JSON values**: an entry of `urls` that is truthy but not a string (a number, a non-empty list) makes `u.strip()` raise, an HTTP 500; the model's entries are strings or `None`, and `None` stands for `null` and every other falsy entry, which `if u` drops (app.py:191). A `null` or non-string `mode` is only compared with `"video"` (app.py:210) and so means audio; the model represents it by any string other than `"video"`, while `None` means the key is absent. A `null` or other hashable non-string `format` selects the default like an unknown name; an unhashable one makes `build_opts` raise inside `download_one`'s `try` (app.py:132-133), so every download records an error outcome, which the model covers because outcomes are inputs.
- **Aliasing in `run_job`**: after its first locked block, `run_job` writes through the job reference it captured, and checks only the id for presence. Nothing in the program ever removes a job, so this is the same as writing through the registry, which is what the model does.
- **Jobs.Registry.Run**: takes no worker count, mode or format. In the program these only size the pool and feed `build_opts` for the downloads, whose results are inputs here.

=== FILE: channel_url.dfy ===
/**
 * `normalize_channel_url`, which both the web front end and the command-line
 * tool use to turn whatever the user typed into the address of a channel's
 * list of uploaded videos. The two copies in the repository agree except that
 * the web copy also accepts `None`.
 */
module ChannelUrl {
  import opened Wrappers
  import opened Text

  /** Substrings that show an address already names a list of videos. */
  const LIST_TAGS: seq<string> := ["/videos", "/streams", "/shorts", "/playlist", "/watch", "list="]
  /** Substrings that show an address names a channel. */
  const CHANNEL_KEYS: seq<string> := ["/channel/", "/user/", "/c/", "/@"]
  /** Put in front of a bare `@handle`. */
  const HANDLE_PREFIX := "https://www.youtube.com/"
  /** Put in front of an address that starts with the bare host. */
  const SCHEME := "https://"
  const BARE_HOST := "youtube.com/"
  /** Appended to a channel address. */
  const VIDEOS_TAB := "/videos"

  /** The lower-cased address without trailing slashes, which the tags and keys are looked for in. */
  function Folded(url: string): string {
    RStripChar(Lower(url), '/')
  }

  /** No list tag ends in `/`, so trimming trailing slashes never hides or reveals one. */
  lemma ListTagsIgnoreTrailingSlash(s: string)
    ensures forall i :: 0 <= i < |LIST_TAGS| ==>
      (Contains(RStripChar(s, '/'), LIST_TAGS[i]) <==> Contains(s, LIST_TAGS[i]))
  {
    forall i | 0 <= i < |LIST_TAGS|
      ensures Contains(RStripChar(s, '/'), LIST_TAGS[i]) <==> Contains(s, LIST_TAGS[i])
    {
      ContainsRStripChar(s, '/', LIST_TAGS[i]);
    }
  }

  /** A channel key found after trimming trailing slashes was there before. */
  lemma ChannelKeysSurviveTrim(s: string)
    ensures forall i :: 0 <= i < |CHANNEL_KEYS| && Contains(RStripChar(s, '/'), CHANNEL_KEYS[i]) ==>
      Contains(s, CHANNEL_KEYS[i])
  {
    var r := RStripChar(s, '/');
    forall i | 0 <= i < |CHANNEL_KEYS| && Contains(r, CHANNEL_KEYS[i])
      ensures Contains(s, CHANNEL_KEYS[i])
    {
      ContainsPrefix(s, |r|, CHANNEL_KEYS[i]);
    }
  }

  /**
   * The address already points to a list (a tab, a playlist, a video page):
   * it contains a list tag, ignoring case. The trailing slashes the test
   * trims never matter.
   */
  predicate NamesList(url: string): (b: bool)
    ensures b <==> exists i :: 0 <= i < |LIST_TAGS| && Contains(Lower(url), LIST_TAGS[i])
  {
    ListTagsIgnoreTrailingSlash(Lower(url));
    exists i :: 0 <= i < |LIST_TAGS| && Contains(Folded(url), LIST_TAGS[i])
  }

  /**
   * The address names a channel, by id, user name, custom name or handle:
   * it contains a channel key, ignoring case. A key that only the trailing
   * slashes complete (`…/c/` at the very end) does not count.
   */
  predicate IsChannelLike(url: string): (b: bool)
    ensures b ==> exists i :: 0 <= i < |CHANNEL_KEYS| && Contains(Lower(url), CHANNEL_KEYS[i])
  {
    ChannelKeysSurviveTrim(Lower(url));
    exists i :: 0 <= i < |CHANNEL_KEYS| && Contains(Folded(url), CHANNEL_KEYS[i])
  }

  /** The scheme-and-host fix-up applied to the stripped input. */
  function WithScheme(s: string): (u: string)
    ensures StartsWith(s, "@") ==> u == HANDLE_PREFIX + s
    ensures !StartsWith(s, "@") && StartsWith(s, BARE_HOST) ==> u == SCHEME + s
    ensures !StartsWith(s, "@") && !StartsWith(s, BARE_HOST) ==> u == s
    ensures !StartsWith(u, "@") && !StartsWith(u, BARE_HOST)
  {
    var s1 := if StartsWith(s, "@") then HANDLE_PREFIX + s else s;
    assert StartsWith(s, "@") ==> s1[0] == 'h';
    var u := if StartsWith(s1, BARE_HOST) then SCHEME + s1 else s1;
    assert StartsWith(s1, BARE_HOST) ==> u[0] == 'h';
    u
  }

  /** The list/channel decision applied to the fixed-up address. */
  function Retarget(u: string): (r: string)
    ensures NamesList(u) || !IsChannelLike(u) ==> r == u
    ensures !NamesList(u) && IsChannelLike(u) ==> r == RStripChar(u, '/') + VIDEOS_TAB
  {
    if NamesList(u) then u
    else if IsChannelLike(u) then RStripChar(u, '/') + VIDEOS_TAB
    else u
  }

  /** `normalize_channel_url(url)` of the command-line tool. */
  function Normalize(url: string): (r: string)
    ensures r == [] <==> IsBlank(url)
    ensures !IsBlank(url) ==> var u := WithScheme(Strip(url)); NamesList(u) ==> r == u
    ensures !IsBlank(url) ==> var u := WithScheme(Strip(url)); !IsChannelLike(u) ==> r == u
    ensures !IsBlank(url) ==> var u := WithScheme(Strip(url));
      !NamesList(u) && IsChannelLike(u) ==> r == RStripChar(u, '/') + VIDEOS_TAB
  {
    var s := Strip(url);
    if s == [] then s else Retarget(WithScheme(s))
  }

  /** `normalize_channel_url(url)` of the web front end, where `None` counts as empty. */
  function NormalizeOptional(url: Option<string>): (r: string)
    ensures r == [] <==> (url.None? || IsBlank(url.value))
    ensures url.Some? ==> r == Normalize(url.value)
  {
    Normalize(if url.Some? then url.value else "")
  }

  /** The fixed-up address of a non-blank input has no surrounding whitespace. */
  lemma WithSchemeTrimmed(s: string)
    requires s != [] && Strip(s) == s
    ensures var u := WithScheme(s); u != [] && Strip(u) == u
  {
    var u := WithScheme(s);
    assert !IsSpace(s[0]) && !IsSpace(s[|s| - 1]);
    assert u[|u| - 1] == s[|s| - 1];
    StripTrimmed(u);
  }

  /** Any address ending in the `/videos` tab names a list. */
  lemma {:induction false} TabNamesList(p: string)
    ensures NamesList(p + VIDEOS_TAB)
  {
    var t := p + VIDEOS_TAB;
    LowerAppend(p, VIDEOS_TAB);
    assert Lower(VIDEOS_TAB) == VIDEOS_TAB;
    assert Lower(t)[|t| - 1] == 's';
    assert Folded(t) == Lower(p) + VIDEOS_TAB;
    ContainsSuffix(Lower(p), VIDEOS_TAB);
    assert LIST_TAGS[0] == VIDEOS_TAB;
  }

  /** An address without slashes names no channel: every channel key contains a slash. */
  lemma {:induction false} NoSlashNoChannel(u: string)
    requires '/' !in u
    ensures !IsChannelLike(u)
  {
    if IsChannelLike(u) {
      var i :| 0 <= i < |CHANNEL_KEYS| && Contains(Folded(u), CHANNEL_KEYS[i]);
      assert CHANNEL_KEYS[i][0] == '/';
      ContainsHead(Folded(u), CHANNEL_KEYS[i]);
      assert false;
    }
  }

  /** Appending the tab to a channel address cannot make it start with the bare host. */
  lemma {:induction false} TabNotBareHost(u: string)
    requires !StartsWith(u, BARE_HOST) && IsChannelLike(u)
    ensures !StartsWith(RStripChar(u, '/') + VIDEOS_TAB, BARE_HOST)
  {
    var p := RStripChar(u, '/');
    var t := p + VIDEOS_TAB;
    var n := |BARE_HOST|;
    if StartsWith(t, BARE_HOST) {
      if |p| >= n {
        assert false;
      } else {
        assert BARE_HOST[|p|] == t[|p|] == '/';
        assert |p| == n - 1;
        assert p == t[..n - 1] == BARE_HOST[..n - 1];
        if |u| > |p| {
          assert false;
        }
        assert u == "youtube.com";
        NoSlashNoChannel(u);
        assert false;
      }
    }
  }

  /** The `/videos` tab of a channel address is itself a list address in canonical form. */
  lemma {:induction false} ChannelTabCanonical(u: string)
    requires u != [] && Strip(u) == u
    requires !StartsWith(u, "@") && !StartsWith(u, BARE_HOST)
    requires IsChannelLike(u)
    ensures var t := RStripChar(u, '/') + VIDEOS_TAB;
      && Strip(t) == t
      && !StartsWith(t, "@") && !StartsWith(t, BARE_HOST)
      && NamesList(t)
  {
    var p := RStripChar(u, '/');
    var t := p + VIDEOS_TAB;
    assert !IsSpace(u[0]) && u[0] != '@';
    assert t[0] == (if p == [] then '/' else u[0]);
    assert t[|t| - 1] == 's';
    StripTrimmed(t);
    TabNamesList(p);
    TabNotBareHost(u);
  }

  /**
   * A normalized address is canonical: blank, or stripped, free of the two
   * prefixes that get rewritten, and either a list or not a channel.
   */
  lemma NormalizeCanonical(url: string)
    ensures var r := Normalize(url);
      r == [] ||
      (&& Strip(r) == r
       && !StartsWith(r, "@") && !StartsWith(r, BARE_HOST)
       && (NamesList(r) || !IsChannelLike(r)))
  {
    var s := Strip(url);
    if s != [] {
      StripIdempotent(url);
      var u := WithScheme(s);
      WithSchemeTrimmed(s);
      if !NamesList(u) && IsChannelLike(u) {
        ChannelTabCanonical(u);
      }
    }
  }

  /** Normalizing a normalized address changes nothing. */
  lemma NormalizeIdempotent(url: string)
    ensures Normalize(Normalize(url)) == Normalize(url)
  {
    NormalizeCanonical(url);
  }

  /** Trimming trailing slashes and appending the tab keeps a prefix that does not end in a slash. */
  lemma {:induction false} TabKeepsPrefix(u: string, h: string)
    requires StartsWith(u, h) && h != [] && h[|h| - 1] != '/'
    ensures StartsWith(RStripChar(u, '/') + VIDEOS_TAB, h)
  {
    var p := RStripChar(u, '/');
    assert u[|h| - 1] != '/';
    assert |p| >= |h|;
    assert (p + VIDEOS_TAB)[..|h|] == p[..|h|] == u[..|h|];
  }

  /** The list/channel decision keeps any prefix that does not end in `/`. */
  lemma RetargetKeepsPrefix(u: string, h: string)
    requires StartsWith(u, h) && h != [] && h[|h| - 1] != '/'
    ensures StartsWith(Retarget(u), h)
  {
    if !NamesList(u) && IsChannelLike(u) {
      TabKeepsPrefix(u, h);
    }
  }

  /** A bare `@handle` becomes an address on the host that keeps the handle. */
  lemma NormalizeHandle(url: string)
    requires StartsWith(Strip(url), "@")
    ensures StartsWith(Normalize(url), HANDLE_PREFIX + "@")
  {
    var s := Strip(url);
    var h := HANDLE_PREFIX + "@";
    var u := WithScheme(s);
    assert StartsWith(u, h) by {
      assert u == HANDLE_PREFIX + s && s[..1] == "@";
      assert u[..|h|] == h;
    }
    RetargetKeepsPrefix(u, h);
    assert Normalize(url) == Retarget(u);
  }
}

=== FILE: cli.dfy ===
/**
 * The decisions of the command-line tool: the language menu, the video or
 * audio choice, the options it builds for yt-dlp, and one round of the
 * channel browser (quit, next page, pick an entry by number).
 */
module Cli {
  import opened Wrappers
  import opened Text
  import opened YdlOptions
  import WebRequest

  /** The three interface languages. */
  datatype Lang = En | Zh | Es

  /** `pick_lang`: the stripped answer "2" or "3" picks Chinese or Spanish; anything else English. */
  function PickLang(answer: string): (lang: Lang)
    ensures lang == Zh <==> Strip(answer) == "2"
    ensures lang == Es <==> Strip(answer) == "3"
    ensures lang == En <==> Strip(answer) != "2" && Strip(answer) != "3"
  {
    var choice := Strip(answer);
    if choice == "1" then En
    else if choice == "2" then Zh
    else if choice == "3" then Es
    else En
  }

  /** The number the language menu lists a language under. */
  function MenuKey(lang: Lang): string {
    match lang
    case En => "1"
    case Zh => "2"
    case Es => "3"
  }

  /** Typing a language's menu number picks that language. */
  lemma PickLangMenuKey(lang: Lang)
    ensures PickLang(MenuKey(lang)) == lang
  {
    match lang
    case En => StripTrimmed("1");
    case Zh => StripTrimmed("2");
    case Es => StripTrimmed("3");
  }

  /** Whitespace around the answer never changes the language picked. */
  lemma PickLangPadded(a: string, answer: string, b: string)
    requires IsBlank(a) && IsBlank(b)
    ensures PickLang(a + answer + b) == PickLang(answer)
  {
    StripPadded(a, answer, b);
  }

  /** `av == "1"` on the stripped answer: only "1" means video; every other answer means audio. */
  function ChooseVideo(answer: string): (isVideo: bool)
    ensures isVideo ==> Strip(answer) == "1"
    ensures !isVideo ==> Strip(answer) != "1"
  {
    Strip(answer) == "1"
  }

  /** Whitespace around the answer never changes the video or audio choice. */
  lemma ChooseVideoPadded(a: string, answer: string, b: string)
    requires IsBlank(a) && IsBlank(b)
    ensures ChooseVideo(a + answer + b) == ChooseVideo(answer)
  {
    StripPadded(a, answer, b);
  }

  /** The codec the audio menu's answer selects. */
  function AudioCodec(fmtChoice: string): (codec: string)
    ensures codec in CODECS
    ensures codec == "m4a" <==> fmtChoice == "2"
    ensures codec == "opus" <==> fmtChoice == "3"
    ensures codec == "mp3" <==> fmtChoice != "2" && fmtChoice != "3"
  {
    if fmtChoice == "2" then "m4a" else if fmtChoice == "3" then "opus" else "mp3"
  }

  /**
   * `build_opts(is_video, fmt_choice, text)` of the command-line tool.
   * `ffmpegBin` is the bundled FFmpeg directory when it exists on disk.
   */
  function BuildOpts(isVideo: bool, fmtChoice: string, ffmpegBin: Option<string>): (o: Opts)
    ensures !o.quiet && o.ffmpegLocation == ffmpegBin
    ensures isVideo ==> IsVideoOpts(o)
    ensures isVideo ==> (o.format == VIDEO_1080 <==> fmtChoice == "2")
    ensures isVideo ==> (o.format == VIDEO_720 <==> fmtChoice == "3")
    ensures !isVideo ==> IsAudioOpts(o, AudioCodec(fmtChoice))
    ensures !isVideo ==> (o.postprocessors[0].preferredCodec == "m4a" <==> fmtChoice == "2")
    ensures !isVideo ==> (o.postprocessors[0].preferredCodec == "opus" <==> fmtChoice == "3")
  {
    if isVideo then
      var format :=
        if fmtChoice == "1" then BEST_VIDEO
        else if fmtChoice == "2" then VIDEO_1080
        else if fmtChoice == "3" then VIDEO_720
        else BEST_VIDEO;
      Opts(format, Some(MERGE_FORMAT), OUTTMPL, false, [], ffmpegBin)
    else
      Opts(BEST_AUDIO, None, OUTTMPL, false, [Postprocessor(EXTRACT_AUDIO, AudioCodec(fmtChoice), AUDIO_QUALITY)], ffmpegBin)
  }

  /** The web page's name for the command-line menu answer `fmtChoice`. */
  function WebChoice(isVideo: bool, fmtChoice: string): string {
    if isVideo then
      (if fmtChoice == "2" then "1080p" else if fmtChoice == "3" then "720p" else "best")
    else AudioCodec(fmtChoice)
  }

  /**
   * Both front ends give yt-dlp the same settings for corresponding choices;
   * only the web front end adds `quiet`.
   */
  lemma BuildOptsMatchesWeb(isVideo: bool, fmtChoice: string, ffmpegBin: Option<string>)
    ensures BuildOpts(isVideo, fmtChoice, ffmpegBin) ==
      WebRequest.BuildOpts(isVideo, WebChoice(isVideo, fmtChoice), ffmpegBin).(quiet := false)
  {
  }

  /** The channel browser shows this many entries per page. */
  const PAGE_SIZE: nat := 10
  /** The browser starts at the first entry. */
  const START_OFFSET: nat := 0

  /** A listed entry: its `url`, and its `webpage_url` as a fallback. */
  datatype Entry = Entry(url: Option<string>, webpageUrl: Option<string>)

  /** `e.get("url") or e.get("webpage_url")`. */
  function Target(e: Entry): (t: Option<string>)
    ensures e.url.Some? && e.url.value != [] ==> t == e.url
    ensures (e.url.None? || e.url.value == []) ==> t == e.webpageUrl
  {
    if e.url.Some? && e.url.value != [] then e.url else e.webpageUrl
  }

  /** What one round of `browse_channel` does. */
  datatype Step =
    | NoEntries                                  // the page is empty: browsing ends
    | Quit                                       // "q": browsing ends
    | NextPage(offset: nat)                      // "m": the next page is fetched
    | Download(target: Option<string>, offset: nat)  // a valid number: that entry is downloaded
    | Invalid(offset: nat)                       // anything else: reported, the page is shown again

  /**
   * The answer as the browser compares it, `.strip().lower()`: empty for a
   * blank answer, otherwise without surrounding whitespace and without
   * upper-case ASCII letters.
   */
  function Answer(answer: string): (r: string)
    ensures |r| <= |answer|
    ensures r == [] <==> IsBlank(answer)
    ensures r == [] || (!IsSpace(r[0]) && !IsSpace(r[|r| - 1]))
    ensures forall i :: 0 <= i < |r| ==> !('A' <= r[i] <= 'Z')
  {
    LowerKeepsTrim(Strip(answer));
    Lower(Strip(answer))
  }

  /**
   * `choice.isdigit()` and `1 <= int(choice) <= len(entries)`: the choice is
   * a number that picks one of the `count` listed entries.
   */
  predicate PicksEntry(choice: string, count: nat): (b: bool)
    ensures b ==> 1 <= count && choice != []
    ensures forall c :: c in choice && !('0' <= c <= '9') ==> !b
  {
    IsDigits(choice) && 1 <= DecimalValue(choice) <= count
  }

  /** A single digit `d` picks entry `d` exactly when the page lists that many. */
  lemma PicksEntryDigit(c: char, count: nat)
    ensures PicksEntry([c], count) <==> '1' <= c <= '9' && c as int - '0' as int <= count
  {
    if '0' <= c <= '9' {
      assert [c][..0] == [];
    }
  }

  /** Leading zeros do not change the entry a number picks, as with `int()`. */
  lemma PicksEntryLeadingZero(choice: string, count: nat)
    requires IsDigits(choice)
    ensures PicksEntry("0" + choice, count) <==> PicksEntry(choice, count)
  {
    DecimalLeadingZero(choice);
  }

  /**
   * One pass of the loop of `browse_channel` at `offset`, given the page
   * fetched there and the folded answer `choice`.
   */
  function Browse(offset: nat, entries: seq<Entry>, choice: string): (s: Step)
    ensures s == NoEntries <==> entries == []
    ensures s == Quit <==> entries != [] && choice == "q"
    ensures s.NextPage? <==> entries != [] && choice == "m"
    ensures s.Download? <==> entries != [] && PicksEntry(choice, |entries|)
    ensures s.NextPage? ==> s.offset == offset + PAGE_SIZE
    ensures s.Download? ==> s.offset == offset && s.target == Target(entries[DecimalValue(choice) - 1])
    ensures s.Invalid? ==> s.offset == offset
  {
    if entries == [] then NoEntries
    else if choice == "q" then Quit
    else if choice == "m" then NextPage(offset + PAGE_SIZE)
    else if IsDigits(choice) then
      var num := DecimalValue(choice);
      if 1 <= num <= |entries| then Download(Target(entries[num - 1]), offset) else Invalid(offset)
    else Invalid(offset)
  }

  /** One round of the browser: the page fetched at the current offset and the user's answer. */
  datatype Round = Round(entries: seq<Entry>, answer: string)

  /** The offset the browser has reached after `rounds`, stopping where browsing ends. */
  function OffsetAfter(offset: nat, rounds: seq<Round>): (r: nat)
    ensures r >= offset
    decreases |rounds|
  {
    if rounds == [] then offset
    else
      var s := Browse(offset, rounds[0].entries, Answer(rounds[0].answer));
      if s.NoEntries? || s.Quit? then offset else OffsetAfter(s.offset, rounds[1..])
  }

  /** The number of "m" answers the browser acts on before browsing ends. */
  function PagesTurned(rounds: seq<Round>): (n: nat)
    ensures n <= |rounds|
  {
    if rounds == [] || rounds[0].entries == [] || Answer(rounds[0].answer) == "q" then 0
    else (if Answer(rounds[0].answer) == "m" then 1 else 0) + PagesTurned(rounds[1..])
  }

  /** Only "m" moves the browser: its offset is the start plus one page per "m" acted on. */
  lemma {:induction false} OffsetCountsPages(offset: nat, rounds: seq<Round>)
    ensures OffsetAfter(offset, rounds) == offset + PAGE_SIZE * PagesTurned(rounds)
    decreases |rounds|
  {
    if rounds != [] {
      var s := Browse(offset, rounds[0].entries, Answer(rounds[0].answer));
      if s.NextPage? || s.Download? || s.Invalid? {
        OffsetCountsPages(s.offset, rounds[1..]);
      }
    }
  }

  /** A browse that starts at the first entry is always at a page boundary: a whole number of pages in. */
  lemma BrowseOffsetOnPage(rounds: seq<Round>)
    ensures OffsetAfter(START_OFFSET, rounds) == PAGE_SIZE * PagesTurned(rounds)
  {
    OffsetCountsPages(START_OFFSET, rounds);
  }
}

=== FILE: jobs.dfy ===
/**
 * The batch-job registry of the web front end: the map from job id to job
 * record, and the steps that create a job, start it, record the outcome of
 * each download as it completes, and give the job its final status.
 *
 * Each step is specified by a function on a job record; the class `Registry`
 * holds the map and performs the steps in place. Downloads run on a thread
 * pool in the web front end, so their outcomes arrive in any order: `Registry.Run`
 * takes that order as a parameter and its result does not depend on it.
 */
module Jobs {
  import opened Wrappers
  import opened WebRequest

  datatype Status = Pending | Running | Done | Error

  /** One address of a job with its progress. */
  datatype Item = Item(url: string, status: Status, message: string)

  /** A job record as the status endpoint returns it. */
  datatype Job = Job(id: string, status: Status, items: seq<Item>, workers: int)

  /** What downloading one address gives: `("done", "")` or `("error", str(exc))`. */
  datatype Outcome = Succeeded | Failed(reason: string)

  predicate IsTerminal(s: Status) {
    s == Done || s == Error
  }

  /** The item an outcome leaves behind for address `url`. */
  function Settled(url: string, o: Outcome): (it: Item)
    ensures it.url == url && IsTerminal(it.status)
    ensures it.status == Done <==> o.Succeeded?
    ensures it.status == Done ==> it.message == []
    ensures it.status == Error ==> it.message == o.reason
  {
    match o
    case Succeeded => Item(url, Done, "")
    case Failed(m) => Item(url, Error, m)
  }

  /** Every item of the sequence finished successfully. */
  predicate AllDone(items: seq<Item>) {
    forall i :: 0 <= i < |items| ==> items[i].status == Done
  }

  /** Every item of the sequence has finished, successfully or not. */
  predicate AllTerminal(items: seq<Item>) {
    forall i :: 0 <= i < |items| ==> IsTerminal(items[i].status)
  }

  /**
   * The status invariant of a job record: a pending job has no items yet; a
   * done job has only done items; a job in error has only finished items and
   * at least one of them failed. No job is done or in error while an item is
   * still pending or running.
   */
  predicate Consistent(j: Job) {
    && (j.status == Pending ==> j.items == [])
    && (j.status == Done ==> AllDone(j.items))
    && (j.status == Error ==> AllTerminal(j.items) && exists i :: 0 <= i < |j.items| && j.items[i].status == Error)
  }

  /** The record `api_download` registers: pending, without items. */
  function NewJob(id: string, workers: int): (j: Job)
    ensures j.id == id && j.workers == workers
    ensures j.status == Pending && j.items == []
  {
    Job(id, Pending, [], workers)
  }

  /** The first step of `run_job`: running, with one pending item per address, in order. */
  function Started(j: Job, urls: seq<string>): (r: Job)
    ensures r.id == j.id && r.workers == j.workers && r.status == Running
    ensures |r.items| == |urls|
    ensures forall i :: 0 <= i < |urls| ==> r.items[i] == Item(urls[i], Pending, "")
  {
    j.(status := Running, items := seq(|urls|, i requires 0 <= i < |urls| => Item(urls[i], Pending, "")))
  }

  /** The dispatch loop of `run_job`: every item is submitted, and marked running. */
  function Dispatched(j: Job): (r: Job)
    ensures r.id == j.id && r.workers == j.workers && r.status == j.status
    ensures |r.items| == |j.items|
    ensures forall i :: 0 <= i < |j.items| ==>
      r.items[i].status == Running && r.items[i].url == j.items[i].url && r.items[i].message == j.items[i].message
  {
    j.(items := seq(|j.items|, i requires 0 <= i < |j.items| => j.items[i].(status := Running)))
  }

  /** One completed download: the item at `idx` takes the outcome's status and message. */
  function Recorded(j: Job, idx: nat, o: Outcome): (r: Job)
    requires idx < |j.items|
    ensures r.id == j.id && r.workers == j.workers && r.status == j.status
    ensures |r.items| == |j.items|
    ensures r.items[idx] == Settled(j.items[idx].url, o)
    ensures forall i :: 0 <= i < |j.items| && i != idx ==> r.items[i] == j.items[i]
  {
    var it := Settled(j.items[idx].url, o);
    j.(items := j.items[idx := j.items[idx].(status := it.status, message := it.message)])
  }

  /** The last step of `run_job`: done when every item is done, and error otherwise. */
  function Finalized(j: Job): (r: Job)
    ensures r.id == j.id && r.workers == j.workers && r.items == j.items
    ensures IsTerminal(r.status)
    ensures r.status == Done <==> AllDone(j.items)
  {
    j.(status := if AllDone(j.items) then Done else Error)
  }

  /**
   * Finalizing a job whose items have all finished meets the status
   * invariant: when not every item is done, some item is in error.
   */
  lemma FinalizedConsistent(j: Job)
    requires AllTerminal(j.items)
    ensures Consistent(Finalized(j))
    ensures Finalized(j).status == Error ==> exists i :: 0 <= i < |j.items| && j.items[i].status == Error
  {
    if !AllDone(j.items) {
      var i :| 0 <= i < |j.items| && j.items[i].status != Done;
      assert j.items[i].status == Error;
    }
  }

  /** At most one step of the lifecycle: pending to running, or running to done or error. */
  predicate StatusStep(a: Status, b: Status) {
    a == b || (a == Pending && b == Running) || (a == Running && IsTerminal(b))
  }

  /**
   * The status moves along the lifecycle: by at most one step when `single`,
   * by any number of steps otherwise. Done never becomes error, nor the
   * reverse, and nothing goes back.
   */
  predicate StatusMoves(a: Status, b: Status, single: bool) {
    StatusStep(a, b) || (!single && a == Pending && IsTerminal(b))
  }

  /** An item keeps its address and moves along the lifecycle; once finished it stays as it is. */
  predicate ItemMoves(a: Item, b: Item, single: bool) {
    && b.url == a.url
    && StatusMoves(a.status, b.status, single)
    && (IsTerminal(a.status) ==> b == a)
  }

  /**
   * A job keeps its id and worker count, its status moves along the
   * lifecycle, and once it has items each of them does too.
   */
  predicate JobMoves(a: Job, b: Job, single: bool) {
    && b.id == a.id && b.workers == a.workers
    && StatusMoves(a.status, b.status, single)
    && (a.items == [] || (|b.items| == |a.items| && forall i :: 0 <= i < |a.items| ==> ItemMoves(a.items[i], b.items[i], single)))
  }

  /** Every item of the sequence has the status `s`. */
  predicate AllAt(items: seq<Item>, s: Status) {
    forall i :: 0 <= i < |items| ==> items[i].status == s
  }

  /** Starting a pending job is one step: to running, with every item pending. */
  lemma StartedStep(j: Job, urls: seq<string>)
    requires Consistent(j) && j.status == Pending
    ensures JobMoves(j, Started(j, urls), true)
    ensures AllAt(Started(j, urls).items, Pending)
  {
  }

  /** Dispatching items that are all pending moves each of them one step, to running. */
  lemma DispatchedStep(j: Job)
    requires AllAt(j.items, Pending)
    ensures JobMoves(j, Dispatched(j), true)
    ensures AllAt(Dispatched(j).items, Running)
  {
  }

  /** Recording the outcome of a running item moves it one step, to done or error. */
  lemma RecordedStep(j: Job, idx: nat, o: Outcome)
    requires idx < |j.items| && j.items[idx].status == Running
    ensures JobMoves(j, Recorded(j, idx, o), true)
  {
  }

  /**
   * Finalizing a running job whose items have all finished is one step, to
   * done or error; finalizing again changes nothing.
   */
  lemma FinalizedStep(j: Job)
    requires Consistent(j) && AllTerminal(j.items)
    ensures j.status == Running ==> JobMoves(j, Finalized(j), true)
    ensures IsTerminal(j.status) ==> Finalized(j) == j
  {
    if j.status == Error {
      var i :| 0 <= i < |j.items| && j.items[i].status == Error;
      assert !AllDone(j.items);
    }
  }

  /** The outcomes of distinct items can be recorded in either order. */
  lemma RecordedCommute(j: Job, a: nat, b: nat, oa: Outcome, ob: Outcome)
    requires a < |j.items| && b < |j.items| && a != b
    ensures Recorded(Recorded(j, a, oa), b, ob) == Recorded(Recorded(j, b, ob), a, oa)
  {
    assert Recorded(Recorded(j, a, oa), b, ob).items == Recorded(Recorded(j, b, ob), a, oa).items;
  }

  /** Every index of `order` is an item index and `results` has one outcome per item. */
  predicate Covers(j: Job, order: seq<nat>, results: seq<Outcome>) {
    |results| == |j.items| && forall k :: 0 <= k < |order| ==> order[k] < |j.items|
  }

  /** The outcomes recorded in the order `order` names them; item `i` receives `results[i]`. */
  function RecordAll(j: Job, order: seq<nat>, results: seq<Outcome>): (r: Job)
    requires Covers(j, order, results)
    ensures r.id == j.id && r.workers == j.workers && r.status == j.status
    ensures |r.items| == |j.items|
  {
    if order == [] then j
    else
      var last := order[|order| - 1];
      Recorded(RecordAll(j, order[..|order| - 1], results), last, results[last])
  }

  /** Recording one more completion extends the fold by one step. */
  lemma RecordAllSnoc(j: Job, order: seq<nat>, k: nat, results: seq<Outcome>)
    requires k < |order| && Covers(j, order, results)
    ensures Covers(j, order[..k], results) && Covers(j, order[..k + 1], results)
    ensures RecordAll(j, order[..k + 1], results) ==
      Recorded(RecordAll(j, order[..k], results), order[k], results[order[k]])
  {
    assert order[..k + 1][..k] == order[..k];
  }

  /**
   * After recording the outcomes of `order`, an item is settled by its own
   * outcome when its index occurs in `order`, and untouched otherwise.
   */
  lemma {:induction false} RecordAllAt(j: Job, order: seq<nat>, results: seq<Outcome>, i: nat)
    requires Covers(j, order, results) && i < |j.items|
    ensures RecordAll(j, order, results).items[i] ==
      if i in order then Settled(j.items[i].url, results[i]) else j.items[i]
  {
    if order != [] {
      var init := order[..|order| - 1];
      var last := order[|order| - 1];
      assert order == init + [last];
      RecordAllAt(j, init, results, i);
      if i != last {
        assert i in order <==> i in init;
      } else {
        var before := RecordAll(j, init, results);
        RecordAllAt(j, init, results, i);
        assert before.items[i].url == j.items[i].url;
      }
    }
  }

  /**
   * Completion order does not matter: any two orders that deliver the same
   * set of indices leave the same job.
   */
  lemma RecordAllOrderIndependent(j: Job, o1: seq<nat>, o2: seq<nat>, results: seq<Outcome>)
    requires Covers(j, o1, results) && Covers(j, o2, results)
    requires forall i :: i in o1 <==> i in o2
    ensures RecordAll(j, o1, results) == RecordAll(j, o2, results)
  {
    var r1 := RecordAll(j, o1, results);
    var r2 := RecordAll(j, o2, results);
    forall i | 0 <= i < |j.items| ensures r1.items[i] == r2.items[i] {
      RecordAllAt(j, o1, results, i);
      RecordAllAt(j, o2, results, i);
    }
    assert r1.items == r2.items;
  }

  /** Recording outcomes for items that were all running moves each item at most one step. */
  lemma RecordAllStep(j: Job, order: seq<nat>, results: seq<Outcome>)
    requires Covers(j, order, results) && AllAt(j.items, Running)
    ensures JobMoves(j, RecordAll(j, order, results), true)
  {
    var r := RecordAll(j, order, results);
    forall i | 0 <= i < |j.items| ensures ItemMoves(j.items[i], r.items[i], true) {
      RecordAllAt(j, order, results, i);
    }
  }

  /** Each index occurs at most once: the pool reports every download once. */
  predicate Distinct(order: seq<nat>) {
    forall a, b :: 0 <= a < b < |order| ==> order[a] != order[b]
  }

  /** When each download reports once, the next one to report is still running. */
  lemma NextArrivalRunning(j: Job, order: seq<nat>, k: nat, results: seq<Outcome>)
    requires k < |order| && Covers(j, order, results) && Distinct(order) && AllAt(j.items, Running)
    ensures Covers(j, order[..k], results)
    ensures RecordAll(j, order[..k], results).items[order[k]].status == Running
  {
    RecordAllAt(j, order[..k], results, order[k]);
    assert order[k] !in order[..k];
  }

  /** The items of a job whose downloads all completed: item `i` settled by `results[i]`. */
  function Completed(urls: seq<string>, results: seq<Outcome>): (items: seq<Item>)
    requires |results| == |urls|
    ensures |items| == |urls|
    ensures forall i :: 0 <= i < |urls| ==> items[i] == Settled(urls[i], results[i])
  {
    seq(|urls|, i requires 0 <= i < |urls| => Settled(urls[i], results[i]))
  }

  /** What `run_job` leaves behind once every outcome has arrived, whatever their order. */
  function Ran(j: Job, urls: seq<string>, results: seq<Outcome>): (r: Job)
    requires |results| == |urls|
    ensures r.id == j.id && r.workers == j.workers
    ensures IsTerminal(r.status) && |r.items| == |urls|
    ensures r.status == Done <==> AllDone(r.items)
  {
    assert AllDone(Completed(urls, results)) <==> forall i :: 0 <= i < |results| ==> results[i].Succeeded?;
    Job(j.id, if forall i :: 0 <= i < |results| ==> results[i].Succeeded? then Done else Error,
        Completed(urls, results), j.workers)
  }

  /**
   * The run as the web front end performs it (start, dispatch, record in completion
   * order, finalize) gives `Ran` whenever the completion order delivers every
   * item at least once.
   */
  lemma {:induction false} RunSteps(j: Job, urls: seq<string>, results: seq<Outcome>, order: seq<nat>)
    requires |results| == |urls|
    requires forall k :: 0 <= k < |order| ==> order[k] < |urls|
    requires forall i :: 0 <= i < |urls| ==> i in order
    ensures var d := Dispatched(Started(j, urls));
      Covers(d, order, results) && Finalized(RecordAll(d, order, results)) == Ran(j, urls, results)
  {
    var d := Dispatched(Started(j, urls));
    var r := RecordAll(d, order, results);
    forall i | 0 <= i < |urls| ensures r.items[i] == Settled(urls[i], results[i]) {
      RecordAllAt(d, order, results, i);
    }
    assert r.items == Completed(urls, results);
    assert AllDone(r.items) <==> forall i :: 0 <= i < |results| ==> results[i].Succeeded? by {
      forall i | 0 <= i < |results| ensures r.items[i].status == Done <==> results[i].Succeeded? {
        assert r.items[i] == Settled(urls[i], results[i]);
      }
    }
  }

  /**
   * The final job meets the status invariant: done exactly when every item
   * is done; error exactly when some item failed, and then that item carries
   * its failure message; no item is left pending or running.
   */
  lemma RanStatus(j: Job, urls: seq<string>, results: seq<Outcome>)
    requires |results| == |urls|
    ensures var r := Ran(j, urls, results);
      && |r.items| == |urls|
      && (forall i :: 0 <= i < |urls| ==> r.items[i].url == urls[i] && IsTerminal(r.items[i].status))
      && (r.status == Done <==> AllDone(r.items))
      && (r.status == Error <==> exists i :: 0 <= i < |urls| && results[i].Failed? && r.items[i] == Item(urls[i], Error, results[i].reason))
      && Consistent(r)
  {
    var r := Ran(j, urls, results);
    if r.status == Error {
      var i :| 0 <= i < |results| && !results[i].Succeeded?;
      assert r.items[i] == Item(urls[i], Error, results[i].reason);
    }
  }

  /** A second update of the same key overrides the first. */
  lemma UpdateTwice<K, V>(m: map<K, V>, k: K, a: V, b: V)
    ensures m[k := a][k := b] == m[k := b]
  {
  }

  /** No job disappears from the map and every job moves along the lifecycle. */
  predicate MapMoves(before: map<string, Job>, after: map<string, Job>, single: bool) {
    forall id :: id in before ==> id in after && JobMoves(before[id], after[id], single)
  }

  /** One operation: every job, and every item, moves by at most one step. */
  predicate Steps(before: map<string, Job>, after: map<string, Job>) {
    MapMoves(before, after, true)
  }

  /** A whole run: every job moves forward by any number of steps. */
  predicate Advances(before: map<string, Job>, after: map<string, Job>) {
    MapMoves(before, after, false)
  }

  /** Replacing one job by a job that moves along the lifecycle moves the whole map. */
  lemma MovesUpdate(m: map<string, Job>, id: string, j: Job, single: bool)
    requires id in m && JobMoves(m[id], j, single)
    ensures MapMoves(m, m[id := j], single)
  {
  }

  /** The job map of the web front end. */
  class Registry {
    var jobs: map<string, Job>

    /**
     * Every job is filed under its own id, has a worker count the request
     * validation allows, and meets the status invariant.
     */
    ghost predicate Valid()
      reads this
    {
      forall id :: id in jobs ==>
        && jobs[id].id == id
        && 1 <= jobs[id].workers <= MAX_WORKERS
        && Consistent(jobs[id])
    }

    /** The registry starts empty. */
    constructor ()
      ensures Valid() && jobs == map[]
    {
      jobs := map[];
    }

    /**
     * `api_download`: validate the request and, when it has addresses,
     * register a new pending job under the fresh id `id` (the program draws it
     * from `uuid4`). A rejected request adds no job.
     */
    method Submit(raw: RawRequest, id: string) returns (r: Result<string, string>)
      requires Valid() && id !in jobs
      modifies this
      ensures Valid() && Steps(old(jobs), jobs)
      ensures r.Failure? <==> Validate(raw).Failure?
      ensures r.Failure? ==> r.error == NO_URLS && jobs == old(jobs)
      ensures r.Success? ==> r.value == id && jobs == old(jobs)[id := NewJob(id, Validate(raw).value.workers)]
    {
      var v := Validate(raw);
      if v.Failure? {
        return Failure(v.error);
      }
      jobs := jobs[id := NewJob(id, v.value.workers)];
      r := Success(id);
    }

    /** `api_job`: the job filed under `id`, or not-found. */
    method Lookup(id: string) returns (r: Option<Job>)
      requires Valid()
      ensures r.None? <==> id !in jobs
      ensures r.Some? ==> r.value == jobs[id] && r.value.id == id
    {
      if id in jobs {
        r := Some(jobs[id]);
      } else {
        r := None;
      }
    }

    /**
     * The first locked block of `run_job`; `found` is false when the job is
     * missing. `run_job` is started once, right after `api_download` has
     * registered the job, so the job is still pending.
     */
    method Start(id: string, urls: seq<string>) returns (found: bool)
      requires Valid()
      requires id in jobs ==> jobs[id].status == Pending
      modifies this
      ensures Valid() && Steps(old(jobs), jobs)
      ensures found == (id in old(jobs))
      ensures !found ==> jobs == old(jobs)
      ensures found ==> jobs == old(jobs)[id := Started(old(jobs)[id], urls)]
    {
      found := id in jobs;
      if found {
        var j := jobs[id];
        jobs := jobs[id := j.(status := Running, items := seq(|urls|, i requires 0 <= i < |urls| => Item(urls[i], Pending, "")))];
        StartedStep(j, urls);
      }
    }

    /** The submission loop of `run_job`: each item in turn is marked running. */
    method Dispatch(id: string)
      requires Valid() && id in jobs && jobs[id].status == Running && AllAt(jobs[id].items, Pending)
      modifies this
      ensures Valid() && Steps(old(jobs), jobs)
      ensures jobs == old(jobs)[id := Dispatched(old(jobs)[id])]
    {
      ghost var j0 := jobs[id];
      var n := |jobs[id].items|;
      var i := 0;
      while i < n
        invariant 0 <= i <= n
        invariant id in jobs && jobs == old(jobs)[id := jobs[id]]
        invariant jobs[id] == j0.(items := jobs[id].items)
        invariant |jobs[id].items| == n
        invariant forall k :: 0 <= k < n ==>
          jobs[id].items[k] == if k < i then j0.items[k].(status := Running) else j0.items[k]
      {
        var j := jobs[id];
        jobs := jobs[id := j.(items := j.items[i := j.items[i].(status := Running)])];
        i := i + 1;
      }
      assert jobs[id].items == Dispatched(j0).items;
      DispatchedStep(j0);
    }

    /**
     * One completed download, written under the lock: the item at `idx` takes
     * the outcome, unless the job is no longer registered.
     */
    method Record(id: string, idx: nat, o: Outcome)
      requires Valid()
      requires id in jobs ==> idx < |jobs[id].items| && jobs[id].status == Running && jobs[id].items[idx].status == Running
      modifies this
      ensures Valid() && Steps(old(jobs), jobs)
      ensures id !in old(jobs) ==> jobs == old(jobs)
      ensures id in old(jobs) ==> jobs == old(jobs)[id := Recorded(old(jobs)[id], idx, o)]
    {
      if id in jobs {
        var j := jobs[id];
        var it := Settled(j.items[idx].url, o);
        jobs := jobs[id := j.(items := j.items[idx := j.items[idx].(status := it.status, message := it.message)])];
        RecordedStep(j, idx, o);
      }
    }

    /**
     * The last locked block of `run_job`: the job's final status, if it is
     * still registered. It runs once every download has reported, so every
     * item has finished.
     */
    method Finalize(id: string)
      requires Valid()
      requires id in jobs ==> jobs[id].status == Running && AllTerminal(jobs[id].items)
      modifies this
      ensures Valid() && Steps(old(jobs), jobs)
      ensures id !in old(jobs) ==> jobs == old(jobs)
      ensures id in old(jobs) ==> jobs == old(jobs)[id := Finalized(old(jobs)[id])]
    {
      if id in jobs {
        var j := jobs[id];
        var allDone := true;
        var k := 0;
        while k < |j.items|
          invariant 0 <= k <= |j.items|
          invariant allDone <==> AllDone(j.items[..k])
        {
          assert j.items[..k + 1] == j.items[..k] + [j.items[k]];
          allDone := allDone && j.items[k].status == Done;
          k := k + 1;
        }
        assert j.items[..k] == j.items;
        jobs := jobs[id := j.(status := if allDone then Done else Error)];
        FinalizedStep(j);
      }
    }

    /**
     * The completion loop of `run_job`: the outcomes are recorded in the
     * order `order` in which the pool reports them, each download once.
     */
    method RecordInOrder(id: string, order: seq<nat>, results: seq<Outcome>)
      requires Valid() && id in jobs && jobs[id].status == Running && AllAt(jobs[id].items, Running)
      requires Covers(jobs[id], order, results) && Distinct(order)
      modifies this
      ensures Valid() && Steps(old(jobs), jobs)
      ensures jobs == old(jobs)[id := RecordAll(old(jobs)[id], order, results)]
    {
      ghost var j0 := jobs[id];
      var k := 0;
      while k < |order|
        invariant 0 <= k <= |order|
        invariant Valid() && id in jobs
        invariant jobs == old(jobs)[id := RecordAll(j0, order[..k], results)]
      {
        RecordAllSnoc(j0, order, k, results);
        NextArrivalRunning(j0, order, k, results);
        Record(id, order[k], results[order[k]]);
        k := k + 1;
      }
      assert order[..k] == order;
      RecordAllStep(j0, order, results);
      MovesUpdate(old(jobs), id, RecordAll(j0, order, results), true);
    }

    /**
     * `run_job` for the job `id` over `urls`. Download `i` gives `results[i]`;
     * `order` is the order in which the pool reports completions and names
     * every item. The final job does not depend on `order`.
     */
    method Run(id: string, urls: seq<string>, results: seq<Outcome>, order: seq<nat>)
      requires Valid()
      requires |results| == |urls|
      requires forall k :: 0 <= k < |order| ==> order[k] < |urls|
      requires forall i :: 0 <= i < |urls| ==> i in order
      requires Distinct(order)
      requires id in jobs ==> jobs[id].status == Pending
      modifies this
      ensures Valid() && Advances(old(jobs), jobs)
      ensures id !in old(jobs) ==> jobs == old(jobs)
      ensures id in old(jobs) ==> jobs == old(jobs)[id := Ran(old(jobs)[id], urls, results)]
    {
      var found := Start(id, urls);
      if !found {
        return;
      }
      ghost var j := old(jobs)[id];
      ghost var d := Dispatched(Started(j, urls));
      Dispatch(id);
      ghost var dispatched := jobs;
      RunSteps(j, urls, results, order);
      ghost var recorded := RecordAll(d, order, results);
      RecordInOrder(id, order, results);
      ghost var completed := jobs;
      assert completed == dispatched[id := recorded];
      assert recorded.items == Ran(j, urls, results).items;
      assert AllTerminal(recorded.items);
      Finalize(id);
      assert jobs == completed[id := Finalized(recorded)];
      UpdateTwice(old(jobs), id, Started(j, urls), d);
      UpdateTwice(old(jobs), id, d, recorded);
      UpdateTwice(old(jobs), id, recorded, Finalized(recorded));
    }
  }
}

=== FILE: text.dfy ===
/**
 * The handful of Python `str` operations the downloader relies on:
 * `strip()`, `rstrip("/")`, `lower()`, `startswith`, the substring test `in`,
 * `isdigit()` and `int()` on a digit string.
 */
module Text {

  /** Python's `str.isspace()`: the characters `str.strip()` removes. */
  predicate IsSpace(c: char) {
    || c == ' '
    || ('\t' <= c <= '\r')
    || ('\U{1C}' <= c <= '\U{1F}')
    || c == '\U{85}' || c == '\U{A0}' || c == '\U{1680}'
    || ('\U{2000}' <= c <= '\U{200A}')
    || c == '\U{2028}' || c == '\U{2029}' || c == '\U{202F}' || c == '\U{205F}' || c == '\U{3000}'
  }

  /** Every character of `s` is whitespace (so `s.strip()` is empty). */
  predicate IsBlank(s: string) {
    forall i :: 0 <= i < |s| ==> IsSpace(s[i])
  }

  /** `s.lstrip()`: `s` without its leading whitespace. */
  function LStrip(s: string): (r: string)
    ensures |r| <= |s| && r == s[|s| - |r|..]
    ensures forall i :: 0 <= i < |s| - |r| ==> IsSpace(s[i])
    ensures r == [] || !IsSpace(r[0])
  {
    if |s| > 0 && IsSpace(s[0]) then LStrip(s[1..]) else s
  }

  /** `s.rstrip()`: `s` without its trailing whitespace. */
  function RStrip(s: string): (r: string)
    ensures |r| <= |s| && r == s[..|r|]
    ensures forall i :: |r| <= i < |s| ==> IsSpace(s[i])
    ensures r == [] || !IsSpace(r[|r| - 1])
  {
    if |s| > 0 && IsSpace(s[|s| - 1]) then RStrip(s[..|s| - 1]) else s
  }

  /** `s.strip()`: the longest infix of `s` that neither starts nor ends with whitespace. */
  function Strip(s: string): (r: string)
    ensures |r| <= |s|
    ensures r == [] || (!IsSpace(r[0]) && !IsSpace(r[|r| - 1]))
    ensures r == [] <==> IsBlank(s)
  {
    var l := LStrip(s);
    var r := RStrip(l);
    assert r == [] ==> l == [];
    r
  }

  /** A string that neither starts nor ends with whitespace is its own strip. */
  lemma {:induction false} StripTrimmed(s: string)
    requires s == [] || (!IsSpace(s[0]) && !IsSpace(s[|s| - 1]))
    ensures Strip(s) == s
  {
  }

  /** Stripping twice is stripping once. */
  lemma StripIdempotent(s: string)
    ensures Strip(Strip(s)) == Strip(s)
  {
    StripTrimmed(Strip(s));
  }

  /** Leading whitespace in front of `s` does not change `s.lstrip()`. */
  lemma {:induction false} LStripBlankPrefix(a: string, s: string)
    requires IsBlank(a)
    ensures LStrip(a + s) == LStrip(s)
  {
    if a != [] {
      assert (a + s)[0] == a[0] && (a + s)[1..] == a[1..] + s;
      LStripBlankPrefix(a[1..], s);
    } else {
      assert a + s == s;
    }
  }

  /** Trailing whitespace after `s` does not change `s.rstrip()`. */
  lemma {:induction false} RStripBlankSuffix(s: string, b: string)
    requires IsBlank(b)
    ensures RStrip(s + b) == RStrip(s)
  {
    if b != [] {
      var b' := b[..|b| - 1];
      assert (s + b)[|s + b| - 1] == b[|b| - 1];
      assert (s + b)[..|s + b| - 1] == s + b';
      RStripBlankSuffix(s, b');
    } else {
      assert s + b == s;
    }
  }

  /** Whitespace appended to a string that is not blank stays after its first non-space character. */
  lemma {:induction false} LStripAppend(s: string, b: string)
    requires !IsBlank(s)
    ensures LStrip(s + b) == LStrip(s) + b
  {
    if IsSpace(s[0]) {
      assert (s + b)[1..] == s[1..] + b;
      assert !IsBlank(s[1..]) by {
        var i :| 0 <= i < |s| && !IsSpace(s[i]);
        assert s[1..][i - 1] == s[i];
      }
      LStripAppend(s[1..], b);
    }
  }

  /** Surrounding whitespace never changes what `strip()` gives. */
  lemma StripPadded(a: string, s: string, b: string)
    requires IsBlank(a) && IsBlank(b)
    ensures Strip(a + s + b) == Strip(s)
  {
    assert a + s + b == a + (s + b);
    LStripBlankPrefix(a, s + b);
    if IsBlank(s) {
      assert IsBlank(s + b);
      assert LStrip(s + b) == [];
      assert Strip(s) == [];
    } else {
      LStripAppend(s, b);
      RStripBlankSuffix(LStrip(s), b);
    }
  }

  /** `s.startswith(p)`. */
  predicate StartsWith(s: string, p: string) {
    |p| <= |s| && s[..|p|] == p
  }

  /** Python's substring test `sub in s`. */
  predicate Contains(s: string, sub: string) {
    StartsWith(s, sub) || (|s| > 0 && Contains(s[1..], sub))
  }

  /** `sub` occurs in `s` starting at index `k`. */
  predicate OccursAt(s: string, sub: string, k: int) {
    0 <= k && k + |sub| <= |s| && s[k..k + |sub|] == sub
  }

  /** `sub in s` holds exactly when `sub` occurs at some index of `s`. */
  lemma {:induction false} ContainsAt(s: string, sub: string)
    ensures Contains(s, sub) <==> exists k :: OccursAt(s, sub, k)
  {
    if StartsWith(s, sub) {
      assert OccursAt(s, sub, 0);
    } else if |s| > 0 {
      ContainsAt(s[1..], sub);
      if k :| OccursAt(s, sub, k) {
        assert k != 0;
        assert s[1..][k - 1..k - 1 + |sub|] == s[k..k + |sub|];
        assert OccursAt(s[1..], sub, k - 1);
      }
      if k :| OccursAt(s[1..], sub, k) {
        assert s[1..][k..k + |sub|] == s[k + 1..k + 1 + |sub|];
        assert OccursAt(s, sub, k + 1);
      }
    }
  }

  /**
   * Dropping trailing `c`s never changes whether `s` contains a non-empty
   * `sub` that does not itself end in `c`.
   */
  lemma ContainsRStripChar(s: string, c: char, sub: string)
    requires sub != [] && sub[|sub| - 1] != c
    ensures Contains(RStripChar(s, c), sub) <==> Contains(s, sub)
  {
    var r := RStripChar(s, c);
    if Contains(r, sub) {
      ContainsPrefix(s, |r|, sub);
    }
    if Contains(s, sub) {
      ContainsBeforeTrail(s, c, sub);
    }
  }

  /** An occurrence that does not end in `c` lies before the trailing `c`s. */
  lemma ContainsBeforeTrail(s: string, c: char, sub: string)
    requires sub != [] && sub[|sub| - 1] != c && Contains(s, sub)
    ensures Contains(RStripChar(s, c), sub)
  {
    var r := RStripChar(s, c);
    ContainsAt(s, sub);
    var k :| OccursAt(s, sub, k);
    var m := k + |sub| - 1;
    assert s[k..k + |sub|][|sub| - 1] == s[m];
    assert m < |r|;
    assert r[k..k + |sub|] == s[k..k + |sub|];
    ContainsAt(r, sub);
    assert OccursAt(r, sub, k);
  }

  /** Whatever a prefix of `s` contains, `s` contains. */
  lemma ContainsPrefix(s: string, n: nat, sub: string)
    requires n <= |s| && Contains(s[..n], sub)
    ensures Contains(s, sub)
  {
    ContainsAt(s[..n], sub);
    ContainsAt(s, sub);
    var k :| OccursAt(s[..n], sub, k);
    assert s[..n][k..k + |sub|] == s[k..k + |sub|];
    assert OccursAt(s, sub, k);
  }

  /** A string ends with any string it contains as a suffix. */
  lemma {:induction false} ContainsSuffix(p: string, sub: string)
    ensures Contains(p + sub, sub)
  {
    if p != [] {
      assert (p + sub)[1..] == p[1..] + sub;
      ContainsSuffix(p[1..], sub);
    } else {
      assert p + sub == sub;
    }
  }

  /** The first character of a contained string occurs in the string that contains it. */
  lemma {:induction false} ContainsHead(s: string, sub: string)
    requires sub != [] && Contains(s, sub)
    ensures sub[0] in s
  {
    if StartsWith(s, sub) {
      assert s[0] == sub[0];
    } else {
      ContainsHead(s[1..], sub);
      var k :| 0 <= k < |s[1..]| && s[1..][k] == sub[0];
      assert s[k + 1] == sub[0];
    }
  }

  /** `c.lower()` for ASCII characters; every other character is kept. */
  function LowerChar(c: char): (r: char)
    ensures ('A' <= c <= 'Z') ==> 'a' <= r <= 'z' && r as int - c as int == 32
    ensures !('A' <= c <= 'Z') ==> r == c
  {
    if 'A' <= c <= 'Z' then (c as int + 32) as char else c
  }

  /** `s.lower()`, restricted to ASCII letters. */
  function Lower(s: string): (r: string)
    ensures |r| == |s|
    ensures forall i :: 0 <= i < |s| ==> r[i] == LowerChar(s[i])
  {
    seq(|s|, i requires 0 <= i < |s| => LowerChar(s[i]))
  }

  /** Lower-casing neither makes nor removes whitespace. */
  lemma LowerCharSpace(c: char)
    ensures IsSpace(LowerChar(c)) <==> IsSpace(c)
  {
  }

  /** Lower-casing a string without surrounding whitespace leaves it without any. */
  lemma LowerKeepsTrim(s: string)
    requires s == [] || (!IsSpace(s[0]) && !IsSpace(s[|s| - 1]))
    ensures var r := Lower(s); r == [] || (!IsSpace(r[0]) && !IsSpace(r[|r| - 1]))
  {
    if s != [] {
      LowerCharSpace(s[0]);
      LowerCharSpace(s[|s| - 1]);
    }
  }

  /** Lower-casing works character by character, so it distributes over concatenation. */
  lemma LowerAppend(s: string, t: string)
    ensures Lower(s + t) == Lower(s) + Lower(t)
  {
  }

  /** `s.rstrip(c)`: `s` without the copies of `c` at its end. */
  function RStripChar(s: string, c: char): (r: string)
    ensures |r| <= |s| && r == s[..|r|]
    ensures forall i :: |r| <= i < |s| ==> s[i] == c
    ensures r == [] || r[|r| - 1] != c
  {
    if |s| > 0 && s[|s| - 1] == c then RStripChar(s[..|s| - 1], c) else s
  }

  /** `s.isdigit()` for ASCII digits: non-empty and all digits. */
  predicate IsDigits(s: string) {
    |s| > 0 && forall i :: 0 <= i < |s| ==> '0' <= s[i] <= '9'
  }

  /** A leading zero does not change a decimal value. */
  lemma {:induction false} DecimalLeadingZero(s: string)
    requires forall i :: 0 <= i < |s| ==> '0' <= s[i] <= '9'
    ensures DecimalValue("0" + s) == DecimalValue(s)
  {
    if s == [] {
      assert ("0" + s)[..0] == [];
    } else {
      var init := s[..|s| - 1];
      DecimalLeadingZero(init);
      assert ("0" + s)[..|"0" + s| - 1] == "0" + init;
    }
  }

  /** `int(s)` for a string of ASCII digits (leading zeros allowed). */
  function DecimalValue(s: string): (n: nat)
    requires forall i :: 0 <= i < |s| ==> '0' <= s[i] <= '9'
    ensures s == [] ==> n == 0
  {
    if s == [] then 0
    else 10 * DecimalValue(s[..|s| - 1]) + (s[|s| - 1] as int - '0' as int)
  }
}

=== FILE: web_request.dfy ===
/**
 * The pure part of the web front end: the options it builds for yt-dlp and
 * the validation of a download request before a job is created.
 */
module WebRequest {
  import opened Wrappers
  import opened Text
  import opened YdlOptions

  const DEFAULT_WORKERS := 4
  const MAX_WORKERS := 8
  /** The error a request without usable addresses is rejected with. */
  const NO_URLS := "No URLs provided"

  /**
   * `build_opts(is_video, fmt_choice)`. `ffmpegBin` is the bundled FFmpeg
   * directory when it exists on disk, and `None` otherwise.
   */
  function BuildOpts(isVideo: bool, fmtChoice: string, ffmpegBin: Option<string>): (o: Opts)
    ensures o.quiet && o.ffmpegLocation == ffmpegBin
    ensures isVideo ==> IsVideoOpts(o)
    ensures isVideo ==> (o.format == VIDEO_1080 <==> fmtChoice == "1080p")
    ensures isVideo ==> (o.format == VIDEO_720 <==> fmtChoice == "720p")
    ensures !isVideo ==> IsAudioOpts(o, if fmtChoice in CODECS then fmtChoice else "mp3")
  {
    if isVideo then
      var format :=
        if fmtChoice == "1080p" then VIDEO_1080
        else if fmtChoice == "720p" then VIDEO_720
        else BEST_VIDEO;
      Opts(format, Some(MERGE_FORMAT), OUTTMPL, true, [], ffmpegBin)
    else
      var codec := if fmtChoice in CODECS then fmtChoice else "mp3";
      Opts(BEST_AUDIO, None, OUTTMPL, true, [Postprocessor(EXTRACT_AUDIO, codec, AUDIO_QUALITY)], ffmpegBin)
  }

  /** A format choice the web page does not offer selects the same options as its default. */
  lemma BuildOptsFallback(isVideo: bool, fmtChoice: string, ffmpegBin: Option<string>)
    requires isVideo ==> fmtChoice !in {"best", "1080p", "720p"}
    requires !isVideo ==> fmtChoice !in CODECS
    ensures BuildOpts(isVideo, fmtChoice, ffmpegBin) == BuildOpts(isVideo, if isVideo then "best" else "mp3", ffmpegBin)
  {
  }

  /**
   * An entry of the request's `urls` array is kept by `if u and u.strip()`:
   * it is a non-empty string whose stripped text is non-empty too.
   */
  predicate IsUsable(u: Option<string>): (b: bool)
    ensures b <==> u.Some? && u.value != [] && Strip(u.value) != []
  {
    u.Some? && !IsBlank(u.value)
  }

  /**
   * `[u.strip() for u in urls if u and u.strip()]`: the stripped non-blank
   * entries, in order, with duplicates kept. `None` is JSON `null`.
   */
  function UsableUrls(urls: seq<Option<string>>): (kept: seq<string>)
    ensures |kept| <= |urls|
  {
    if urls == [] then []
    else if IsUsable(urls[0]) then [Strip(urls[0].value)] + UsableUrls(urls[1..])
    else UsableUrls(urls[1..])
  }

  /** Every kept address is non-empty and has no surrounding whitespace. */
  lemma {:induction false} UsableUrlsTrimmed(urls: seq<Option<string>>)
    ensures forall i :: 0 <= i < |UsableUrls(urls)| ==>
      UsableUrls(urls)[i] != [] && Strip(UsableUrls(urls)[i]) == UsableUrls(urls)[i]
  {
    if urls != [] {
      UsableUrlsTrimmed(urls[1..]);
      if IsUsable(urls[0]) {
        StripIdempotent(urls[0].value);
      }
    }
  }

  /** Filtering a concatenation filters each part in turn, so the order of the entries is kept. */
  lemma {:induction false} UsableUrlsAppend(a: seq<Option<string>>, b: seq<Option<string>>)
    ensures UsableUrls(a + b) == UsableUrls(a) + UsableUrls(b)
  {
    if a == [] {
      assert a + b == b;
    } else {
      assert (a + b)[0] == a[0] && (a + b)[1..] == a[1..] + b;
      UsableUrlsAppend(a[1..], b);
    }
  }

  /** No address is kept exactly when no entry is usable; this is when a request is rejected. */
  lemma {:induction false} UsableUrlsEmpty(urls: seq<Option<string>>)
    ensures UsableUrls(urls) == [] <==> forall i :: 0 <= i < |urls| ==> !IsUsable(urls[i])
  {
    if urls != [] {
      UsableUrlsEmpty(urls[1..]);
      assert forall i :: 1 <= i < |urls| ==> urls[i] == urls[1..][i - 1];
    }
  }

  /** One entry gives its stripped text when it is usable and nothing otherwise. */
  lemma UsableUrlsSingle(u: Option<string>)
    ensures UsableUrls([u]) == if IsUsable(u) then [Strip(u.value)] else []
  {
    assert [u][1..] == [];
  }

  /** The `workers` field as Python's `int()` sees it. */
  datatype WorkersField =
    | Missing          // key absent: the default is used and `int(4)` succeeds
    | Unparseable      // `int()` raised
    | Parsed(n: int)   // what `int()` returned

  /** `max(1, min(int(workers), MAX_WORKERS))`, or the default when `int()` fails. */
  function ClampWorkers(w: WorkersField): (n: int)
    ensures 1 <= n <= MAX_WORKERS
    ensures w.Parsed? && 1 <= w.n <= MAX_WORKERS ==> n == w.n
    ensures w.Parsed? && w.n < 1 ==> n == 1
    ensures w.Parsed? && w.n > MAX_WORKERS ==> n == MAX_WORKERS
    ensures !w.Parsed? ==> n == DEFAULT_WORKERS
  {
    match w
    case Missing => DEFAULT_WORKERS
    case Unparseable => DEFAULT_WORKERS
    case Parsed(k) =>
      var capped := if k < MAX_WORKERS then k else MAX_WORKERS;
      if capped < 1 then 1 else capped
  }

  /** Clamping is idempotent: a clamped count parses back to itself. */
  lemma ClampWorkersIdempotent(w: WorkersField)
    ensures ClampWorkers(Parsed(ClampWorkers(w))) == ClampWorkers(w)
  {
  }

  /**
   * The JSON body of a download request. For `mode` and `format`, `None`
   * marks an absent key; a `null` or non-string value is compared like a
   * string that matches no choice, so it stands here as any such string.
   * An entry of `urls` is `None` when it is `null` or another falsy value,
   * which the filter drops.
   */
  datatype RawRequest = RawRequest(
    urls: seq<Option<string>>,
    mode: Option<string>,
    format: Option<string>,
    workers: WorkersField)

  /** A request that passed validation: what the background job runs with. */
  datatype Request = Request(urls: seq<string>, isVideo: bool, fmtChoice: string, workers: int)

  /** The validation `api_download` does before it creates a job. */
  function Validate(raw: RawRequest): (r: Result<Request, string>)
    ensures r.Failure? <==> forall i :: 0 <= i < |raw.urls| ==> !IsUsable(raw.urls[i])
    ensures r.Failure? <==> UsableUrls(raw.urls) == []
    ensures r.Failure? ==> r.error == NO_URLS
    ensures r.Success? ==>
      && r.value.urls == UsableUrls(raw.urls) && r.value.urls != []
      && 1 <= r.value.workers <= MAX_WORKERS
      && r.value.workers == ClampWorkers(raw.workers)
      && (r.value.isVideo <==> raw.mode.None? || raw.mode.value == "video")
      && r.value.fmtChoice == (if raw.format.Some? then raw.format.value else "best")
  {
    var urls := UsableUrls(raw.urls);
    var mode := if raw.mode.Some? then raw.mode.value else "video";
    var fmtChoice := if raw.format.Some? then raw.format.value else "best";
    var workers := ClampWorkers(raw.workers);
    UsableUrlsEmpty(raw.urls);
    if urls == [] then Failure(NO_URLS)
    else Success(Request(urls, mode == "video", fmtChoice, workers))
  }
}

=== FILE: wrappers.dfy ===
/** Optional values and results with an error, as the rest of the model uses them. */
module Wrappers {

  /** A value that may be absent (Python's None). */
  datatype Option<+T> = None | Some(value: T)

  /** The outcome of an operation that may be rejected with an error message. */
  datatype Result<+R, +E> = Success(value: R) | Failure(error: E)
}

=== FILE: ydl_options.dfy ===
/** The options record both front ends hand to yt-dlp for one download. */
module YdlOptions {
  import opened Wrappers

  /** The format string that picks the best video and audio streams. */
  const BEST_VIDEO := "bestvideo+bestaudio/best"
  /** The same, limited to a height of 1080 lines. */
  const VIDEO_1080 := "bestvideo[height<=1080]+bestaudio/best"
  /** The same, limited to a height of 720 lines. */
  const VIDEO_720 := "bestvideo[height<=720]+bestaudio/best"
  /** The format string of every audio download. */
  const BEST_AUDIO := "bestaudio/best"
  /** The name template of every download. */
  const OUTTMPL := "%(title)s.%(ext)s"
  /** The post-processor that extracts the audio track. */
  const EXTRACT_AUDIO := "FFmpegExtractAudio"
  /** The audio quality every extraction asks for. */
  const AUDIO_QUALITY := "192"
  /** The container video downloads are merged into. */
  const MERGE_FORMAT := "mp4"
  /** The audio codecs an extraction can ask for. */
  const CODECS: set<string> := {"mp3", "m4a", "opus"}

  /** One entry of the `postprocessors` list. */
  datatype Postprocessor = Postprocessor(key: string, preferredCodec: string, preferredQuality: string)

  /**
   * The options dictionary. `mergeOutputFormat` and `ffmpegLocation` are `None`
   * where the key is absent; `quiet` is false where the key is absent, which is
   * how yt-dlp reads a missing `quiet`.
   */
  datatype Opts = Opts(
    format: string,
    mergeOutputFormat: Option<string>,
    outtmpl: string,
    quiet: bool,
    postprocessors: seq<Postprocessor>,
    ffmpegLocation: Option<string>)

  /** The options of a video download. */
  predicate IsVideoOpts(o: Opts) {
    && o.format in {BEST_VIDEO, VIDEO_1080, VIDEO_720}
    && o.mergeOutputFormat == Some(MERGE_FORMAT)
    && o.outtmpl == OUTTMPL
    && o.postprocessors == []
  }

  /** The options of an audio extraction with codec `codec`. */
  predicate IsAudioOpts(o: Opts, codec: string) {
    && codec in CODECS
    && o.format == BEST_AUDIO
    && o.mergeOutputFormat.None?
    && o.outtmpl == OUTTMPL
    && o.postprocessors == [Postprocessor(EXTRACT_AUDIO, codec, AUDIO_QUALITY)]
  }
}
